=== FILE: README.md ===
# A verified model of the assembly simulator's machine

The simulator executes a small AArch64-like instruction set over one
global machine state. That state has:

- 31 general registers (x0–x30, each also visible as its 32-bit w view);
- sp and pc;
- a condition code set by `cmp`;
- a byte-addressed simulated stack between two inclusive absolute bounds, `stack_top` and `stack_bot`;
- a code segment with one instruction per 4-byte slot.

This project models the core of `machine.c`:

- stack growth (`grow_stack`);
- machine initialisation (`init_machine`);
- instruction fetch;
- operand resolution (`get_value`, `put_value`, `get_memory_address`);
- every instruction handler and the `execute` dispatch.

The model is pure. A `Machine` is an immutable datatype, and each handler is a
function from one state to the next. 64-bit wrap-around is written out with
`Wrap` (reduction modulo 2^64). The w view's `(uint32_t)` truncation is
written out as `% 2^32`. Multi-byte stack accesses are little-endian byte
sequences.

Modules, in dependency order:

| file | module | contents |
|---|---|---|
| `words.dfy` | `Words` | 8/64-bit value types, powers of two, wrap-around, little-endian encoding and its round trips |
| `bits.dfy` | `Bits` | bit-level definitions of `&`, `\|`, `^`, `<<`, `>>` and leading zeros, related to arithmetic |
| `isa.dfy` | `Isa` | operands, register views, opcodes, instructions, condition codes |
| `alu.dfy` | `Alu` | the value each arithmetic/bitwise opcode computes, clz, cmp's condition and the branch tests |
| `stack.dfy` | `StackMemory` | the stack buffer, byte reads/writes, `grow_stack` as written and corrected |
| `machine.dfy` | `MachineState` | the machine, `init_machine`, `fetch`, `get_value`, `put_value`, `get_memory_address` |
| `engine.dfy` | `Engine` | operand shapes, definedness, the `execute_*` handlers and `execute` |
| `properties.dfy` | `ExecutionProperties` | properties of instruction pairs: store/load, call/return, compare/branch |
| `scenarios.dfy` | `Scenarios` | concrete runs derived from the general properties |

Points where `machine.c` behaves differently from what one might assume:

- After `init_machine`, `stack_top` is the initial sp itself, with no rounding. `stack_bot` is `sp + 7`.
- Downward growth always leaves `stack_bot + 1` on a word boundary, not `stack_bot`. Initialisation does so only when sp % 8 == 0, since it does no rounding. `WordAligned` states this form of alignment.
- Downward growth does not keep every byte already on the stack: it drops the byte at the old `stack_bot` (see Findings).
- `ldr` into a w register reads 4 bytes, not 8. `ldr` into sp reads 8 bytes. `ldr` into pc is ignored.
- `str` from sp or pc writes nothing.

The register marker `REGISTER_NULL` is `MachineState.RegisterNull`, a constant whose value the model leaves open. Nothing in the model depends on that value.

Both signed and unsigned division are unsigned floor division, as in the code.

`subs` sets no condition code.

`neg` computes `0 - op1` modulo 2^64.

## Model

| member | source | states |
|---|---|---|
| Words.LeValueOfLeBytes | machine.c:283-287 | storing a value as n little-endian bytes and reading them back yields the value reduced modulo 2^(8n) — the `(uint32_t)` truncation of a w store |
| Words.LeBytesOfLeValue | machine.c:267-270 | reading n bytes as a little-endian value and encoding it back on n bytes gives the same bytes |
| Words.LeRoundTrip | machine.c:283-287 | a value below 2^(8n) survives an n-byte store and load exactly |
| Bits.BitwiseBits | machine.c:248-256 | bit i of the bitwise combination of a and b is the boolean operator applied to bit i of a and bit i of b, and is clear at and above the width |
| Bits.AndPlusOr | machine.c:248-253 | (a & b) + (a \| b) == a + b for values of the given width |
| Bits.XorTwice | machine.c:254-255 | exclusive or with b twice restores a |
| Bits.ShiftLeftIsMul | machine.c:242-244 | shifting left by s is multiplication by 2^s modulo 2^64 |
| Bits.ShiftRightIsDiv | machine.c:245-247 | shifting right by s is floor division by 2^s |
| Bits.ShiftLeftThenRight | machine.c:242-247 | `(a << s) >> s` keeps exactly the low 64 - s bits of a |
| Bits.ShiftRightThenLeft | machine.c:242-247 | `(a >> s) << s` clears exactly the low s bits of a |
| Bits.LeadingZeros | machine.c:360-365 | the scan from the top bit counts the leading zeros: the count is the width exactly when the value is 0, and otherwise 2^(width-count-1) <= v < 2^(width-count) |
| Alu.Sum | machine.c:216 | uint64 addition: the result is the exact sum or the sum minus 2^64 |
| Alu.Difference | machine.c:220 | uint64 subtraction: the result is the exact difference or the difference plus 2^64, and the latter exactly when the first operand is smaller |
| Alu.Product | machine.c:223 | uint64 multiplication: the result differs from the exact product by a multiple of 2^64 (so, being below 2^64, it is the product modulo 2^64); it never exceeds the product and equals it whenever the product fits |
| Alu.Quotient | machine.c:227 | uint64 division: the quotient q satisfies q*b <= a < (q+1)*b |
| Alu.ArithmeticResult | machine.c:214-229 | execute_arithmetic's switch: add and sub/subs wrap at most once, mul is the product modulo 2^64 (exact when it fits), sdiv and udiv give the unsigned floor quotient |
| Alu.BitwiseResult | machine.c:238-257 | execute_bitwise's switch: neg gives 0 - a wrapped at most once, and lsr never increases its operand (the shifts and logic operators are characterised by ShiftsAreScaling and LogicIsBitwise) |
| Alu.Compute | machine.c:214-257 | the value an arithmetic or bitwise opcode writes: add/sub/subs/neg wrap at most once, mul is the product modulo 2^64, sdiv/udiv floor, lsr does not increase |
| Alu.Compare | machine.c:295-303 | cmp always sets a condition: Zero exactly when the operands are equal, Negative exactly when the first is smaller, Positive exactly when it is larger (unsigned) |
| Alu.Taken | machine.c:316-338 | the branch tests read per condition: with none set only bne is taken; after Zero beq, ble and bge; after Negative bne, blt and ble; after Positive bne, bgt and bge |
| Alu.AddSubInverse | machine.c:215-221 | wrapping add and sub undo each other; subs computes what sub does |
| Alu.NegIsInverse | machine.c:239-241 | neg is the additive inverse modulo 2^64, ignores its second source and is an involution |
| Alu.DivisionIsUnsignedFloor | machine.c:225-228 | sdiv and udiv agree and give the unsigned floor quotient q with q*b <= a < (q+1)*b |
| Alu.ShiftsAreScaling | machine.c:222-247 | lsl by s equals mul by 2^s, and lsr by s equals udiv by 2^s, for s < 64 |
| Alu.LogicIsBitwise | machine.c:248-256 | each bit of and/orr/eor is the boolean and/or/xor of the operands' bits |
| Alu.LogicIdentities | machine.c:248-256 | and + orr == a + b, and eor by the same operand twice restores a |
| Alu.ClzCount | machine.c:347-365 | clz counts over 32 bits of the low word for w and 64 bits for x; the result is the width exactly when that value is 0, and otherwise fixes the value's bit length |
| Alu.BranchAfterCompare | machine.c:292-339 | after cmp a, b some condition is set, and each conditional branch is taken exactly when its unsigned relation holds between a and b (both directions) |
| Alu.BranchBeforeCompare | machine.c:316-339 | with no condition set (the initial state), only bne is taken |
| StackMemory.Write | machine.c:283-287 | a store keeps the bounds, reads back the written bytes and leaves every other byte unchanged |
| StackMemory.Grow | machine.c:13-55 | grow_stack as written: the result covers the address; upward growth rounds top down to a word, zero-fills and keeps every old byte; downward growth sets bot + 1 to the next word boundary above the address, but keeps only the bytes below the old bot and zeroes the old bot's byte; a covered address changes nothing |
| StackMemory.GrowPreserving | machine.c:43-53 | grow_stack with the full buffer copied: the same bounds, every old byte kept, every new byte zero |
| StackMemory.GrowIdempotent | machine.c:13-55 | growing twice to the same address is the same as growing once |
| StackMemory.GrowKeepsAlignment | machine.c:15-53 | a word-aligned stack stays word aligned under growth in both directions |
| StackMemory.GrowLosesOldBottomByte | machine.c:44-47 | downward growth as written changes the byte at the old bot whenever it was non-zero, while the corrected version keeps it |
| StackMemory.GrowLosesOldBottomByteExample | machine.c:44-53 | the concrete stack 0..7 with 0xAB at address 7, grown to 8, reads 0 at address 7 |
| MachineState.Init | machine.c:60-81 | every general register holds the null marker, sp and pc are as given, no condition is set, and the stack is exactly the 8 zero bytes sp .. sp+7 |
| MachineState.InitProperties | machine.c:73-77 | the initial stack covers sp and is word aligned when sp is |
| MachineState.Fetch | machine.c:138-141 | the fetched instruction is one of the code segment's |
| MachineState.FetchSlot | machine.c:138-141 | every pc in the 4-byte slot code_top + 4i .. code_top + 4i + 3 fetches instruction i |
| MachineState.GetValue | machine.c:146-169 | a constant or address gives its literal; a w operand reads the low 32 bits zero-extended, an x operand the full register; sp and pc give their current values; an unknown register view gives 0 |
| MachineState.PutValue | machine.c:174-192 | a write reads back through the same view (truncated to 32 bits for w), touches only the named register, sp or pc, and an unknown view writes nothing |
| MachineState.PutValueOverwrites | machine.c:174-192 | a second write through the same operand replaces the first |
| MachineState.RegisterViewsAlias | machine.c:146-192 | w and x name one register: a w write reads back through x zero-extended, and an x write reads back through w truncated |
| MachineState.EffectiveAddress | machine.c:197-207 | the address is base + offset, wrapped past 2^64 at most once |
| MachineState.EffectiveAddressFrame | machine.c:197-207 | the address depends only on the registers, sp and pc, so a store does not move it |
| Engine.ExecArithmetic | machine.c:210-231 | only the destination changes; it reads back the wrapped result of the opcode on the two sources, and a w or x destination register holds exactly that result, with the upper 32 bits cleared for w |
| Engine.ExecBitwise | machine.c:234-259 | only the destination changes; every view of the destination (w, x, sp or pc) reads back the bitwise, shift or neg result, and a w or x destination register holds it with the upper 32 bits cleared for w; for neg into x, destination + source == 0 modulo 2^64 |
| Engine.ExecMov | machine.c:408-409 | only the destination changes; it reads back the source's value through its view, and a w destination register holds the low 32 bits with the upper 32 cleared |
| Engine.Load | machine.c:267-273 | the value loaded from n bytes is below 2^(8n), and encoding it back on n little-endian bytes gives exactly the bytes at the address |
| Engine.ExecLdr | machine.c:261-276 | only the destination changes; a w or x destination, or sp, holds the value whose 4 or 8 little-endian bytes are the bytes at the effective address (so a w load is below 2^32); a pc destination changes nothing |
| Engine.ExecStr | machine.c:278-290 | the 4 (w) or 8 (x) bytes at the address decode to the source value; every other byte and the rest of the machine (registers, sp, pc, condition, code and its bounds) are unchanged |
| Engine.ExecCmp | machine.c:292-304 | only the condition changes: Zero, Negative or Positive exactly when the first operand is equal to, below or above the second |
| Engine.ExecBranch | machine.c:306-345 | b jumps; bl jumps and saves pc + 4 in x30; a conditional branch jumps exactly when its test holds; only pc and, for bl, x30 change; sp, the condition, the stack, the code and its bounds are unchanged |
| Engine.ExecClz | machine.c:347-367 | only the destination changes, and it receives the leading-zero count over the destination's width |
| Engine.ExecLdrb | machine.c:369-374 | only the destination changes; it reads back the byte at the address, and a w or x destination register holds exactly that byte, zero-extended |
| Engine.ExecStrb | machine.c:376-381 | the byte at the address becomes the source's low byte; every other byte and the rest of the machine, code bounds included, are unchanged |
| Engine.ExecRet | machine.c:383-385 | pc becomes x30 and nothing else changes |
| Engine.Execute | machine.c:390-447 | the code segment and stack bounds never change; only cmp sets the condition; only str/strb change stack bytes; pc changes only through branches, ret or a pc destination; nop and unimplemented opcodes change nothing |
| ExecutionProperties.StoreHandlerThenLoadHandler | machine.c:261-290 | execute_str of a w or x register followed by execute_ldr of the same view at the same operand loads the stored value (low 32 bits for w) |
| ExecutionProperties.StoreThenLoad | machine.c:261-290 | str of a w or x register followed by ldr of the same view from the same operand loads the stored value (low 32 bits for w) |
| ExecutionProperties.StoreByteThenLoadByte | machine.c:369-381 | strb followed by ldrb from the same operand loads the low byte of the stored value |
| ExecutionProperties.IgnoredTransfers | machine.c:261-290 | str from sp, pc or an unknown view, and ldr into pc or an unknown view, leave the machine unchanged |
| ExecutionProperties.CallThenReturn | machine.c:312-385 | bl to a target then ret returns to the address after the bl |
| ExecutionProperties.CompareThenBranch | machine.c:292-339 | cmp x, y then a conditional branch jumps exactly when the branch's unsigned relation holds between x and y, and otherwise leaves pc alone |
| ExecutionProperties.StraightLineKeepsFetchSlot | machine.c:390-447 | an instruction that is neither a branch nor ret, and has no pc destination, leaves the fetched instruction unchanged |
| Scenarios.ArithmeticExamples | machine.c:215-241 | 2+3 = 5, 6*7 = 42, 0-1 and neg 1 wrap to 2^64-1, and 7/2 = 3 for both divisions |
| Scenarios.ClzExamples | machine.c:347-367 | clz of 1 is 31 through w and 63 through x; clz of 0 through x is 64; clz of 2^32 through w is 32 |
| Scenarios.WriteW0ReadX0 | machine.c:174-181 | writing 0xFFFFFFFF to w0 reads 0x00000000FFFFFFFF through x0, and a wider value is truncated |
| Scenarios.CallReturnExample | machine.c:312-385 | bl at 0x1000 jumps and sets x30 to 0x1004, and ret returns to 0x1004 |
| Scenarios.CompareEqualExample | machine.c:292-339 | cmp 4, 4 sets Zero; beq is taken while blt and bgt are not |
| Scenarios.CompareLessExample | machine.c:292-327 | cmp 3, 5 sets Negative and blt is taken |
| Scenarios.BranchBeforeCompareExample | machine.c:316-323 | before any cmp, bne is taken and beq is not |
| Scenarios.LittleEndianExample | machine.c:286-287 | 0x0123456789ABCDEF is laid out as EF CD AB 89 67 45 23 01 |
| Scenarios.StoreLoadExample | machine.c:261-290 | str x1, [sp] then ldr x2, [sp] on the initial stack copies x1 into x2 |
| Scenarios.GrowExamples | machine.c:13-55 | growing the word 16..23 to 5 gives 0..23, to 24 or 30 gives 16..31, and to 20 changes nothing |

## Left out

- `print_memory`: it only prints. Its `grow_stack` call is the only one in the file; `grow_stack` is modelled on its own.
- `parse_file` and the instruction and operand encodings of `code.h`/`machine.h`: the code segment and its bounds are parameters of `MachineState.Init`. Instructions and operands are datatypes. `REGISTER_NULL` is a constant whose value is left open; `code.h` and `machine.h` are not part of this model.
- The driver loop that calls `fetch` and `execute`, advances pc by 4 and decides when to stop is not part of `machine.c`.
- `malloc`/`free` and the `machine.stack != NULL` tests: the stack buffer is a sequence that always exists after initialisation, so the null case cannot arise.
- Operations whose effect is undefined in C are excluded by preconditions rather than modelled: division by zero; shifts of 64 or more; loads and stores outside the current stack bounds (`execute` never grows the stack); clz with a destination that is neither w nor x.
- The C `assert`s on operand tags, and the unconditional reads of operand slots, become the `Engine.WellFormed` precondition. An instruction failing it either trips an `assert` or reads an operand the C code leaves undefined (for example a missing operand slot, or a non-register source of `str`, whose tag execute_str never checks).
- MachineState.Init: requires `sp + 7 < 2^64`. The computation of `stack_bot` would wrap otherwise, and the model does not follow it there.
- StackMemory.Grow: requires `GrowDefined`, so the downward rounding `new_sp + 8 - new_sp % 8` does not wrap past 2^64. The C `malloc` size arithmetic near the top of the address space is not modelled.
- MachineState.Fetch: the C stores the slot index in an `int`. The model uses an unbounded index, so code segments of more than 2^31 slots are not modelled, and a pc outside the segment is excluded by `CanFetch`.
- Engine.ExecBitwise: for `neg`, the C also reads the third operand and discards it. The model does not read it, so `neg` with only two operands is accepted. Its additive-inverse clause is stated for an x destination; every other view is stated as the same 64-bit negation read back through that view (its low 32 bits for w).
- The `printf` diagnostics on an unknown register view, an unknown operand type, a non-branch opcode in `execute_branches` and an unimplemented opcode: the model keeps only their effect on the state. `get_value` gives 0, `put_value` writes nothing, and the machine is unchanged.

## Findings

| source | as written | input that shows it | evidently intended | confidence | as-written member | corrected member |
|---|---|---|---|---|---|---|
| machine.c:47 | downward growth copies `stack_bot - stack_top` bytes, one fewer than the old buffer holds; the byte at the old `stack_bot` is then cleared by the `memset` at line 45 | stack top 0, bot 7, byte 0xAB at address 7, then `grow_stack(8)`: address 7 reads 0 | copy `stack_bot - stack_top + 1` bytes, as the upward branch does at line 25, so every byte already on the stack keeps its value | high, not executed | StackMemory.GrowLosesOldBottomByte | StackMemory.GrowPreserving |

=== FILE: alu.dfy ===
/** The values the arithmetic and bitwise opcodes compute from their two
    resolved source operands, the condition cmp derives from its operands, and
    the test each conditional branch applies to that condition. All register
    values are treated as unsigned 64-bit quantities. */
module Alu {
  import opened Words
  import opened Bits
  import opened Isa

  /** What the C code leaves undefined: division by zero and shifts by 64 or
      more. Both depend only on the second source b. */
  predicate Defined(op: Opcode, b: U64)
  {
    && ((op.Sdiv? || op.Udiv?) ==> b != 0)
    && ((op.Lsl? || op.Lsr?) ==> b < 64)
  }

  /** The result execute_arithmetic writes to the destination: uint64
      add, sub (subs alike), mul and division of the two sources. */
  function ArithmeticResult(op: Opcode, a: U64, b: U64): (r: U64)
    requires IsArithmetic(op) && Defined(op, b)
    ensures op.Add? ==> r == a + b || r == a + b - TWO64
    ensures op.Sub? || op.Subs? ==> r == a - b || r == a - b + TWO64
    ensures op.Mul? ==> r <= a * b && (a * b < TWO64 ==> r == a * b)
    ensures op.Mul? ==> exists k: nat :: a * b == k * TWO64 + r
    ensures op.Sdiv? || op.Udiv? ==> r * b <= a < (r + 1) * b
  {
    match op
    case Add => Sum(a, b)
    case Sub | Subs => Difference(a, b)
    case Mul => Product(a, b)
    case Sdiv | Udiv => Quotient(a, b)
  }

  /** The result execute_bitwise writes to the destination: uint64 negation
      of the first source, shifts by the second, and the bitwise operators. */
  function BitwiseResult(op: Opcode, a: U64, b: U64): (r: U64)
    requires IsBitwise(op) && Defined(op, b)
    ensures op.Neg? ==> r == 0 - a || r == TWO64 - a
    ensures op.Lsr? ==> r <= a
  {
    match op
    case Neg => Difference(0, a)
    case Lsl => ShiftLeft(a, b)
    case Lsr => ShiftRight(a, b)
    case And => Logic64(AndOp, a, b)
    case Orr => Logic64(OrOp, a, b)
    case Eor => Logic64(XorOp, a, b)
  }

  /** The value an arithmetic or bitwise opcode computes from source values
      a and b, as execute dispatches it to one of the two handlers. */
  function Compute(op: Opcode, a: U64, b: U64): (r: U64)
    requires IsArithmetic(op) || IsBitwise(op)
    requires Defined(op, b)
    ensures op.Add? ==> r == a + b || r == a + b - TWO64
    ensures op.Sub? || op.Subs? ==> r == a - b || r == a - b + TWO64
    ensures op.Mul? ==> r <= a * b && (a * b < TWO64 ==> r == a * b)
    ensures op.Mul? ==> exists k: nat :: a * b == k * TWO64 + r
    ensures op.Sdiv? || op.Udiv? ==> r * b <= a < (r + 1) * b
    ensures op.Neg? ==> r == 0 - a || r == TWO64 - a
    ensures op.Lsr? ==> r <= a
  {
    if IsArithmetic(op) then ArithmeticResult(op, a, b) else BitwiseResult(op, a, b)
  }

  /** uint64 addition: the sum wraps at most once. */
  function Sum(a: U64, b: U64): (r: U64)
    ensures r == a + b || r == a + b - TWO64
  {
    Wrap(a + b)
  }

  /** uint64 subtraction: the difference wraps at most once. */
  function Difference(a: U64, b: U64): (r: U64)
    ensures r == a - b || r == a - b + TWO64
    ensures a < b ==> r == a - b + TWO64
  {
    Wrap(a - b)
  }

  /** uint64 multiplication: the product reduced modulo 2^64, exact when it fits. */
  function Product(a: U64, b: U64): (r: U64)
    ensures r <= a * b && (a * b < TWO64 ==> r == a * b)
    ensures exists k: nat :: a * b == k * TWO64 + r
  {
    var r := Wrap(a * b);
    assert a * b == ((a * b) / TWO64) * TWO64 + r;
    r
  }

  /** uint64 division: the quotient rounded down, q * b <= a < (q + 1) * b. */
  function Quotient(a: U64, b: U64): (q: U64)
    requires b != 0
    ensures q * b <= a < (q + 1) * b
  {
    a / b
  }

  /** and, orr and eor on 64-bit words. */
  function Logic64(f: Logic, a: U64, b: U64): (r: U64)
    ensures r == Bitwise(f, a, b, 64)
  {
    Pow2Widths();
    Bitwise(f, a, b, 64)
  }

  /** sub undoes add and add undoes sub, modulo 2^64; subs computes the same as sub. */
  lemma AddSubInverse(a: U64, b: U64)
    ensures Compute(Sub, Compute(Add, a, b), b) == a
    ensures Compute(Add, Compute(Sub, a, b), b) == a
    ensures Compute(Subs, a, b) == Compute(Sub, a, b)
  {
  }

  /** neg is the additive inverse modulo 2^64 and ignores its second source. */
  lemma NegIsInverse(a: U64, b: U64, c: U64)
    ensures Compute(Add, a, Compute(Neg, a, b)) == 0
    ensures Compute(Neg, a, b) == Compute(Neg, a, c)
    ensures Compute(Neg, Compute(Neg, a, b), c) == a
  {
  }

  /** sdiv and udiv are the same unsigned floor division. */
  lemma DivisionIsUnsignedFloor(a: U64, b: U64)
    requires b != 0
    ensures Compute(Sdiv, a, b) == Compute(Udiv, a, b)
    ensures Compute(Udiv, a, b) * b <= a < (Compute(Udiv, a, b) + 1) * b
  {
  }

  /** lsl by s is mul by 2^s, and lsr by s is udiv by 2^s. */
  lemma ShiftsAreScaling(a: U64, s: U64)
    requires s < 64
    ensures Pow2(s) < TWO64
    ensures Compute(Lsl, a, s) == Compute(Mul, a, Pow2(s))
    ensures Compute(Lsr, a, s) == Compute(Udiv, a, Pow2(s))
  {
    ShiftBelowWidth(s);
    ShiftLeftIsMul(a, s);
    ShiftRightIsDiv(a, s);
  }

  lemma ShiftBelowWidth(s: nat)
    requires s < 64
    ensures Pow2(s) < TWO64
  {
    Pow2Widths();
    Pow2Monotonic(s + 1, 64);
  }

  /** Bit i of and/orr/eor is the corresponding boolean function of bit i of
      the sources, for every bit of the 64-bit word. */
  lemma LogicIsBitwise(a: U64, b: U64, i: nat)
    requires i < 64
    ensures Bit(Compute(And, a, b), i) == (Bit(a, i) && Bit(b, i))
    ensures Bit(Compute(Orr, a, b), i) == (Bit(a, i) || Bit(b, i))
    ensures Bit(Compute(Eor, a, b), i) == (Bit(a, i) != Bit(b, i))
  {
    ComputeLogic(a, b);
    BitwiseBits(AndOp, a, b, 64, i);
    BitwiseBits(OrOp, a, b, 64, i);
    BitwiseBits(XorOp, a, b, 64, i);
  }

  lemma ComputeLogic(a: U64, b: U64)
    ensures Compute(And, a, b) == Bitwise(AndOp, a, b, 64)
    ensures Compute(Orr, a, b) == Bitwise(OrOp, a, b, 64)
    ensures Compute(Eor, a, b) == Bitwise(XorOp, a, b, 64)
  {
  }

  /** and + orr == a + b (exactly, not modulo 2^64), and eor twice with the
      same operand restores the value. */
  lemma LogicIdentities(a: U64, b: U64)
    ensures Compute(And, a, b) + Compute(Orr, a, b) == a + b
    ensures Compute(Eor, Compute(Eor, a, b), b) == a
  {
    ComputeLogic(a, b);
    ComputeLogic(Compute(Eor, a, b), b);
    Pow2Widths();
    AndPlusOr(a, b, 64);
    XorTwice(a, b, 64);
  }

  /** The number of leading zeros execute_clz computes: over 32 bits of the
      source masked to its low word for a w destination, over all 64 bits for
      an x destination. */
  function ClzCount(dest: RegKind, v: U64): (count: nat)
    requires dest == W || dest == X
    ensures count <= (if dest == W then 32 else 64)
    ensures count == (if dest == W then 32 else 64) <==> (if dest == W then v % TWO32 else v) == 0
    ensures var width, x := (if dest == W then 32 else 64), (if dest == W then v % TWO32 else v);
      count < width ==> Pow2(width - count - 1) <= x < Pow2(width - count)
  {
    Pow2Widths();
    if dest == W then LeadingZeros(v % TWO32, 32) else LeadingZeros(v, 64)
  }

  // ---------------------------------------------------------------------
  // cmp and the conditional branches
  // ---------------------------------------------------------------------

  /** The condition cmp records for operands a and b (unsigned comparison). */
  function Compare(a: U64, b: U64): (c: Condition)
    ensures c != NoCondition
    ensures c == Zero <==> a == b
    ensures c == Negative <==> a < b
    ensures c == Positive <==> a > b
  {
    if a == b then Zero else if a < b then Negative else Positive
  }

  /** Whether a conditional branch is taken under condition c (the C code
      tests the condition's bits). Read per condition: with none set only bne
      is taken; after equal operands beq, ble and bge; after a smaller first
      operand bne, blt and ble; after a larger one bne, bgt and bge. */
  function Taken(op: Opcode, c: Condition): (r: bool)
    requires IsConditionalBranch(op)
    ensures c == NoCondition ==> (r <==> op.Bne?)
    ensures c == Zero ==> (r <==> op.Beq? || op.Ble? || op.Bge?)
    ensures c == Negative ==> (r <==> op.Bne? || op.Blt? || op.Ble?)
    ensures c == Positive ==> (r <==> op.Bne? || op.Bgt? || op.Bge?)
  {
    match op
    case Beq => c == Zero
    case Bne => c != Zero
    case Blt => c == Negative
    case Bgt => c == Positive
    case Ble => c == Zero || c == Negative
    case Bge => c == Zero || c == Positive
  }

  /** After cmp a, b each conditional branch is taken exactly when its
      unsigned relation holds between a and b. */
  lemma BranchAfterCompare(a: U64, b: U64)
    ensures Compare(a, b) != NoCondition
    ensures Taken(Beq, Compare(a, b)) <==> a == b
    ensures Taken(Bne, Compare(a, b)) <==> a != b
    ensures Taken(Blt, Compare(a, b)) <==> a < b
    ensures Taken(Bgt, Compare(a, b)) <==> a > b
    ensures Taken(Ble, Compare(a, b)) <==> a <= b
    ensures Taken(Bge, Compare(a, b)) <==> a >= b
  {
  }

  /** Before any cmp only bne is taken. */
  lemma BranchBeforeCompare(op: Opcode)
    requires IsConditionalBranch(op)
    ensures Taken(op, NoCondition) <==> op.Bne?
  {
  }
}

=== FILE: bits.dfy ===
/** Bit-level operations of the machine over unbounded naturals: the 64-bit
    and/orr/eor, the lsl/lsr shifts and the leading-zero count of clz. Each is
    defined one bit at a time and then related to an independent arithmetic
    description. */
module Bits {
  import opened Words

  /** Bit i of v, i.e. (v >> i) & 1. */
  function Bit(v: nat, i: nat): bool
  {
    if i == 0 then v % 2 == 1 else Bit(v / 2, i - 1)
  }

  /** Below 2^i, bit i-1 is set exactly when v has reached 2^(i-1). */
  lemma {:induction false} TopBit(v: nat, i: nat)
    requires 1 <= i && v < Pow2(i)
    ensures Bit(v, i - 1) <==> v >= Pow2(i - 1)
  {
    if i > 1 {
      TopBit(v / 2, i - 1);
    }
  }

  // ---------------------------------------------------------------------
  // and, orr, eor
  // ---------------------------------------------------------------------

  datatype Logic = AndOp | OrOp | XorOp

  function Combine(f: Logic, x: bool, y: bool): bool
  {
    match f
    case AndOp => x && y
    case OrOp => x || y
    case XorOp => x != y
  }

  /** f applied to bits 0 .. n-1 of a and b; the result has no bit at n or above. */
  function Bitwise(f: Logic, a: nat, b: nat, n: nat): (r: nat)
    ensures r < Pow2(n)
  {
    if n == 0 then 0
    else (if Combine(f, a % 2 == 1, b % 2 == 1) then 1 else 0) + 2 * Bitwise(f, a / 2, b / 2, n - 1)
  }

  /** Each bit of the result below n is f of the corresponding input bits,
      and every bit at n or above is clear. */
  lemma {:induction false} BitwiseBits(f: Logic, a: nat, b: nat, n: nat, i: nat)
    ensures Bit(Bitwise(f, a, b, n), i) == (i < n && Combine(f, Bit(a, i), Bit(b, i)))
  {
    var r := Bitwise(f, a, b, n);
    if n == 0 {
      ZeroBits(i);
    } else if i > 0 {
      assert r / 2 == Bitwise(f, a / 2, b / 2, n - 1);
      BitwiseBits(f, a / 2, b / 2, n - 1, i - 1);
    }
  }

  lemma {:induction false} ZeroBits(i: nat)
    ensures !Bit(0, i)
  {
    if i > 0 {
      ZeroBits(i - 1);
    }
  }

  /** and + orr == a + b: each bit position contributes the same to both sides. */
  lemma {:induction false} AndPlusOr(a: nat, b: nat, n: nat)
    requires a < Pow2(n) && b < Pow2(n)
    ensures Bitwise(AndOp, a, b, n) + Bitwise(OrOp, a, b, n) == a + b
  {
    if n > 0 {
      AndPlusOr(a / 2, b / 2, n - 1);
    }
  }

  /** eor with the same operand twice is the identity. */
  lemma {:induction false} XorTwice(a: nat, b: nat, n: nat)
    requires a < Pow2(n)
    ensures Bitwise(XorOp, Bitwise(XorOp, a, b, n), b, n) == a
  {
    if n > 0 {
      var r := Bitwise(XorOp, a, b, n);
      assert r / 2 == Bitwise(XorOp, a / 2, b / 2, n - 1);
      XorTwice(a / 2, b / 2, n - 1);
    }
  }

  // ---------------------------------------------------------------------
  // lsl, lsr
  // ---------------------------------------------------------------------

  /** a << s on a 64-bit value: s single-bit shifts, each dropping bit 63. */
  function ShiftLeft(a: U64, s: nat): U64
    decreases s
  {
    if s == 0 then a else ShiftLeft(Wrap(2 * a), s - 1)
  }

  /** a >> s: s single-bit logical shifts. */
  function ShiftRight(a: nat, s: nat): (r: nat)
    ensures r <= a
  {
    if s == 0 then a else ShiftRight(a / 2, s - 1)
  }

  /** Shifting left by s multiplies by 2^s modulo 2^64. */
  lemma {:induction false} ShiftLeftIsMul(a: U64, s: nat)
    ensures ShiftLeft(a, s) == (a * Pow2(s)) % TWO64
    decreases s
  {
    if s > 0 {
      var w, p := Wrap(2 * a), Pow2(s - 1);
      ShiftLeftIsMul(w, s - 1);
      ModMulLeft(2 * a, p, TWO64);
      Reassociate(a, p, Pow2(s));
    }
  }

  lemma Reassociate(a: nat, p: nat, q: nat)
    requires q == 2 * p
    ensures (2 * a) * p == a * q
  {
  }

  /** Shifting right by s is floor division by 2^s. */
  lemma {:induction false} ShiftRightIsDiv(a: nat, s: nat)
    ensures ShiftRight(a, s) == a / Pow2(s)
  {
    if s > 0 {
      ShiftRightIsDiv(a / 2, s - 1);
      ModProduct(a, 2, Pow2(s - 1));
    }
  }

  /** Shifting left and back right keeps exactly the bits that did not fall off the top. */
  lemma ShiftLeftThenRight(a: U64, s: nat)
    requires s <= 64
    ensures ShiftRight(ShiftLeft(a, s), s) == a % Pow2(64 - s)
  {
    ShiftLeftIsMul(a, s);
    ShiftRightIsDiv(ShiftLeft(a, s), s);
    Pow2Widths();
    Pow2Add(64 - s, s);
    ScaleModDiv(a, Pow2(64 - s), Pow2(s));
  }

  /** Scaling by hi, reducing modulo p * hi and dividing by hi again leaves a mod p. */
  lemma ScaleModDiv(a: nat, p: nat, hi: nat)
    requires p > 0 && hi > 0
    ensures ((a * hi) % (p * hi)) / hi == a % p
  {
    var q, r := a / p, a % p;
    assert a * hi == q * (p * hi) + r * hi by {
      assert a == p * q + r;
    }
    ModAddMultiple(q, r * hi, p * hi);
    assert r * hi < p * hi by {
      MulMonotonic(hi, r, p - 1);
      assert hi * (p - 1) == p * hi - hi;
    }
    DivModUnique(r * hi, p * hi, 0, r * hi);
    DivModUnique(r * hi, hi, r, 0);
  }

  /** Shifting right and back left clears the s low bits. */
  lemma ShiftRightThenLeft(a: U64, s: nat)
    ensures ShiftLeft(ShiftRight(a, s), s) == a - a % Pow2(s)
  {
    ShiftRightIsDiv(a, s);
    ShiftLeftIsMul(ShiftRight(a, s), s);
    TruncateLow(a, Pow2(s));
  }

  /** Rounding a 64-bit value down to a multiple of p does not wrap. */
  lemma TruncateLow(a: U64, p: nat)
    requires p > 0
    ensures ((a / p) * p) % TWO64 == a - a % p
  {
    var x := (a / p) * p;
    assert x == a - a % p by {
      assert a == p * (a / p) + a % p;
    }
    DivModUnique(x, TWO64, 0, x);
  }

  // ---------------------------------------------------------------------
  // clz
  // ---------------------------------------------------------------------

  /** The scan of execute_clz over i bits: step down from bit i-1 until a set
      bit is found, counting the clear bits passed. The count is pinned down by
      the position of v's highest set bit: 2^(i-count-1) <= v < 2^(i-count),
      and it is the full width exactly when v is zero. */
  function LeadingZeros(v: nat, i: nat): (count: nat)
    requires v < Pow2(i)
    ensures count <= i
    ensures count == i <==> v == 0
    ensures count < i ==> Pow2(i - count - 1) <= v < Pow2(i - count)
  {
    if i == 0 then 0
    else if Bit(v, i - 1) then TopBit(v, i); 0
    else TopBit(v, i); 1 + LeadingZeros(v, i - 1)
  }
}

=== FILE: engine.dfy ===
/** The execution engine: one handler per opcode family (execute_arithmetic,
    execute_bitwise, execute_ldr, execute_str, execute_cmp, execute_branches,
    execute_clz, execute_ldrb, execute_strb, execute_ret) and the execute
    dispatch. Each handler is a pure transition from one machine state to the
    next. execute never advances pc itself: the +4 of the fetch loop is the
    driver's, which is not part of this model. */
module Engine {
  import opened Words
  import opened Isa
  import opened Alu
  import opened StackMemory
  import opened MachineState

  /** The operand shapes each handler relies on: the C code asserts them
      (register destinations, memory operands for loads and stores, value
      operands for sources) or reads the slots unconditionally. */
  predicate WellFormed(ins: Instruction)
  {
    var ops := ins.operands;
    match ins.op
    case Add | Sub | Subs | Mul | Sdiv | Udiv | Lsl | Lsr | And | Orr | Eor =>
      |ops| >= 3 && ops[0].Register? && IsValueOperand(ops[1]) && IsValueOperand(ops[2])
    case Neg | Mov =>
      |ops| >= 2 && ops[0].Register? && IsValueOperand(ops[1])
    case Ldr | Ldrb | Str =>
      |ops| >= 2 && ops[0].Register? && ops[1].Memory?
    case Strb =>
      |ops| >= 2 && IsValueOperand(ops[0]) && ops[1].Memory?
    case Cmp =>
      |ops| >= 2 && IsValueOperand(ops[0]) && IsValueOperand(ops[1])
    case B | Bl | Beq | Bne | Blt | Bgt | Ble | Bge =>
      |ops| >= 1 && IsValueOperand(ops[0])
    case Clz =>
      |ops| >= 2 && ops[0].Register? && ops[0].kind in {W, X} && IsValueOperand(ops[1])
    case Ret | Nop | Unimplemented(_) =>
      true
  }

  /** Bytes ldr reads for a destination view: 4 for w, 8 for x and sp, none otherwise. */
  function LoadWidth(kind: RegKind): nat
  {
    match kind
    case W => 4
    case X | SP => 8
    case PC | BadKind => 0
  }

  /** Bytes str writes for a source view: 4 for w, 8 for x, none otherwise. */
  function StoreWidth(kind: RegKind): nat
  {
    match kind
    case W => 4
    case X => 8
    case SP | PC | BadKind => 0
  }

  /** An access of n bytes at addr stays inside the stack buffer. */
  predicate Accessible(m: Machine, addr: U64, n: nat)
  {
    n == 0 || m.stack.CoversRange(addr, n)
  }

  /** What the C code needs for ins to have a defined effect on m: a divisor
      that is not zero, a shift count below 64, and loads and stores inside
      the current stack bounds (execute never grows the stack). */
  predicate Executable(m: Machine, ins: Instruction)
  {
    && m.Valid()
    && WellFormed(ins)
    && var ops := ins.operands;
       match ins.op
       case Sdiv | Udiv => GetValue(m, ops[2]) != 0
       case Lsl | Lsr => GetValue(m, ops[2]) < 64
       case Ldr => Accessible(m, EffectiveAddress(m, ops[1]), LoadWidth(ops[0].kind))
       case Str => Accessible(m, EffectiveAddress(m, ops[1]), StoreWidth(ops[0].kind))
       case Ldrb | Strb => Accessible(m, EffectiveAddress(m, ops[1]), 1)
       case _ => true
  }

  // ---------------------------------------------------------------------
  // Handlers
  // ---------------------------------------------------------------------

  /** execute_arithmetic: the destination receives op1 <op> op2; nothing
      else changes (subs in particular sets no condition). */
  function ExecArithmetic(m: Machine, ins: Instruction): (r: Machine)
    requires Executable(m, ins) && IsArithmetic(ins.op)
    ensures r.Valid() && WritesOnly(m, r, ins.operands[0])
    ensures ins.operands[0].kind != BadKind ==>
      GetValue(r, ins.operands[0]) ==
      Stored(ins.operands[0].kind, Compute(ins.op, GetValue(m, ins.operands[1]), GetValue(m, ins.operands[2])))
    ensures ins.operands[0].kind in {W, X} ==>
      r.registers[ins.operands[0].index] ==
      Stored(ins.operands[0].kind, Compute(ins.op, GetValue(m, ins.operands[1]), GetValue(m, ins.operands[2])))
  {
    var a := GetValue(m, ins.operands[1]);
    var b := GetValue(m, ins.operands[2]);
    PutValue(m, ins.operands[0], Compute(ins.op, a, b))
  }

  /** execute_bitwise: as for arithmetic; neg uses only its first source. */
  function ExecBitwise(m: Machine, ins: Instruction): (r: Machine)
    requires Executable(m, ins) && IsBitwise(ins.op)
    ensures r.Valid() && WritesOnly(m, r, ins.operands[0])
    ensures !ins.op.Neg? && ins.operands[0].kind != BadKind ==>
      GetValue(r, ins.operands[0]) ==
      Stored(ins.operands[0].kind, Compute(ins.op, GetValue(m, ins.operands[1]), GetValue(m, ins.operands[2])))
    ensures !ins.op.Neg? && ins.operands[0].kind in {W, X} ==>
      r.registers[ins.operands[0].index] ==
      Stored(ins.operands[0].kind, Compute(ins.op, GetValue(m, ins.operands[1]), GetValue(m, ins.operands[2])))
    ensures ins.op.Neg? && ins.operands[0].kind != BadKind ==>
      GetValue(r, ins.operands[0]) == Stored(ins.operands[0].kind, Compute(Neg, GetValue(m, ins.operands[1]), 0))
    ensures ins.op.Neg? && ins.operands[0].kind in {W, X} ==>
      r.registers[ins.operands[0].index] == Stored(ins.operands[0].kind, Compute(Neg, GetValue(m, ins.operands[1]), 0))
    ensures ins.op.Neg? && ins.operands[0].kind == X ==>
      Wrap(r.registers[ins.operands[0].index] + GetValue(m, ins.operands[1])) == 0
  {
    var a := GetValue(m, ins.operands[1]);
    var b := if ins.op.Neg? then 0 else GetValue(m, ins.operands[2]);
    PutValue(m, ins.operands[0], Compute(ins.op, a, b))
  }

  /** mov: the destination receives the source's value. */
  function ExecMov(m: Machine, ins: Instruction): (r: Machine)
    requires Executable(m, ins) && ins.op.Mov?
    ensures r.Valid() && WritesOnly(m, r, ins.operands[0])
    ensures ins.operands[0].kind != BadKind ==>
      GetValue(r, ins.operands[0]) == Stored(ins.operands[0].kind, GetValue(m, ins.operands[1]))
    ensures ins.operands[0].kind in {W, X} ==>
      r.registers[ins.operands[0].index] == Stored(ins.operands[0].kind, GetValue(m, ins.operands[1]))
  {
    PutValue(m, ins.operands[0], GetValue(m, ins.operands[1]))
  }

  /** The n-byte little-endian value at addr (the *(uint32_t *) and
      *(uint64_t *) reads of the stack buffer). */
  function Load(s: Stack, addr: U64, n: nat): (v: U64)
    requires s.Valid() && s.CoversRange(addr, n) && n <= 8
    ensures v < Pow2(8 * n)
    ensures LeBytes(v, n) == Read(s, addr, n)
  {
    Pow2Widths();
    Pow2Monotonic(8 * n, 64);
    LeBytesOfLeValue(Read(s, addr, n));
    LeValue(Read(s, addr, n))
  }

  /** execute_ldr: a w destination receives the 4 little-endian bytes at the
      effective address, an x destination or sp the 8 bytes there; a pc
      destination is ignored. */
  function ExecLdr(m: Machine, ins: Instruction): (r: Machine)
    requires Executable(m, ins) && ins.op.Ldr?
    ensures r.Valid() && WritesOnly(m, r, ins.operands[0])
    ensures ins.operands[0].kind == W ==> r.registers[ins.operands[0].index] < TWO32
    ensures var dest, e := ins.operands[0], EffectiveAddress(m, ins.operands[1]);
      && (dest.kind in {W, X} ==> LeBytes(r.registers[dest.index], LoadWidth(dest.kind)) == Read(m.stack, e, LoadWidth(dest.kind)))
      && (dest.kind == SP ==> LeBytes(r.sp, 8) == Read(m.stack, e, 8))
    ensures ins.operands[0].kind in {PC, BadKind} ==> r == m
  {
    var dest := ins.operands[0];
    var e := EffectiveAddress(m, ins.operands[1]);
    match dest.kind
    case W =>
      var v := Load(m.stack, e, 4);
      Pow2Widths();
      assert v % TWO32 == v;
      PutValue(m, dest, v)
    case X => PutValue(m, dest, Load(m.stack, e, 8))
    case SP => m.(sp := Load(m.stack, e, 8))
    case PC | BadKind => m
  }

  /** execute_str: a w source writes its 4 low bytes, an x source all 8, at
      the effective address, least significant first; nothing else on the
      stack changes, and sp or pc sources write nothing. */
  function ExecStr(m: Machine, ins: Instruction): (r: Machine)
    requires Executable(m, ins) && ins.op.Str?
    ensures r.Valid() && r == m.(stack := r.stack)
    ensures r.stack.top == m.stack.top && r.stack.bot == m.stack.bot
    ensures var e, n := EffectiveAddress(m, ins.operands[1]), StoreWidth(ins.operands[0].kind);
      && (n > 0 ==> LeValue(Read(r.stack, e, n)) == GetValue(m, ins.operands[0]))
      && (forall x :: r.stack.Covers(x) && !(e <= x < e + n) ==> r.stack.At(x) == m.stack.At(x))
  {
    var src := ins.operands[0];
    var e := EffectiveAddress(m, ins.operands[1]);
    var n := StoreWidth(src.kind);
    if n == 0 then
      m
    else
      var v := GetValue(m, src);
      Pow2Widths();
      LeRoundTrip(v, n);
      m.(stack := Write(m.stack, e, LeBytes(v, n)))
  }

  /** execute_cmp: the condition becomes Zero, Negative or Positive as the
      first operand is equal to, below or above the second (unsigned). */
  function ExecCmp(m: Machine, ins: Instruction): (r: Machine)
    requires Executable(m, ins) && ins.op.Cmp?
    ensures r == m.(conditions := r.conditions)
    ensures var a, b := GetValue(m, ins.operands[0]), GetValue(m, ins.operands[1]);
      && (r.conditions == Zero <==> a == b)
      && (r.conditions == Negative <==> a < b)
      && (r.conditions == Positive <==> a > b)
  {
    m.(conditions := Compare(GetValue(m, ins.operands[0]), GetValue(m, ins.operands[1])))
  }

  /** execute_branches: b jumps; bl stores pc + 4 in x30 and jumps; a
      conditional branch jumps when its test holds under the current
      condition and otherwise leaves pc alone. */
  function ExecBranch(m: Machine, ins: Instruction): (r: Machine)
    requires Executable(m, ins) && IsBranch(ins.op)
    ensures r.Valid() && r == m.(pc := r.pc, registers := r.registers)
    ensures var target := GetValue(m, ins.operands[0]);
      && (ins.op.B? ==> r.pc == target)
      && (ins.op.Bl? ==> r.pc == target && r.registers[LinkRegister] == Wrap(m.pc + 4))
      && (IsConditionalBranch(ins.op) ==> r.pc == (if Taken(ins.op, m.conditions) then target else m.pc))
    ensures forall j: RegIndex :: j != LinkRegister || !ins.op.Bl? ==> r.registers[j] == m.registers[j]
  {
    var target := GetValue(m, ins.operands[0]);
    match ins.op
    case B => m.(pc := target)
    case Bl => m.(registers := m.registers[LinkRegister := Wrap(m.pc + 4)], pc := target)
    case Beq | Bne | Blt | Bgt | Ble | Bge =>
      if Taken(ins.op, m.conditions) then m.(pc := target) else m
  }

  /** execute_clz: the destination receives the number of leading zero bits
      of the source, over 32 bits for a w destination and 64 for x. */
  function ExecClz(m: Machine, ins: Instruction): (r: Machine)
    requires Executable(m, ins) && ins.op.Clz?
    ensures r.Valid() && WritesOnly(m, r, ins.operands[0])
    ensures r.registers[ins.operands[0].index] == ClzCount(ins.operands[0].kind, GetValue(m, ins.operands[1]))
  {
    var dest := ins.operands[0];
    PutValue(m, dest, ClzCount(dest.kind, GetValue(m, ins.operands[1])))
  }

  /** execute_ldrb: the destination receives the byte at the effective address. */
  function ExecLdrb(m: Machine, ins: Instruction): (r: Machine)
    requires Executable(m, ins) && ins.op.Ldrb?
    ensures r.Valid() && WritesOnly(m, r, ins.operands[0])
    ensures ins.operands[0].kind != BadKind ==>
      GetValue(r, ins.operands[0]) == m.stack.At(EffectiveAddress(m, ins.operands[1]))
    ensures ins.operands[0].kind in {W, X} ==>
      r.registers[ins.operands[0].index] == m.stack.At(EffectiveAddress(m, ins.operands[1]))
  {
    PutValue(m, ins.operands[0], m.stack.At(EffectiveAddress(m, ins.operands[1])))
  }

  /** execute_strb: the low byte of the source is written at the effective
      address and no other byte changes. */
  function ExecStrb(m: Machine, ins: Instruction): (r: Machine)
    requires Executable(m, ins) && ins.op.Strb?
    ensures r.Valid() && r == m.(stack := r.stack)
    ensures r.stack.top == m.stack.top && r.stack.bot == m.stack.bot
    ensures var e := EffectiveAddress(m, ins.operands[1]);
      && r.stack.At(e) == GetValue(m, ins.operands[0]) % 0x100
      && (forall x :: r.stack.Covers(x) && x != e ==> r.stack.At(x) == m.stack.At(x))
  {
    var e := EffectiveAddress(m, ins.operands[1]);
    m.(stack := Write(m.stack, e, [GetValue(m, ins.operands[0]) % 0x100]))
  }

  /** execute_ret: pc takes the value of the link register x30. */
  function ExecRet(m: Machine): (r: Machine)
    requires m.Valid()
    ensures r.Valid() && r.pc == m.registers[LinkRegister]
    ensures r == m.(pc := r.pc)
  {
    m.(pc := m.registers[LinkRegister])
  }

  /** Whether ins writes pc through its destination operand (put_value with a
      pc view). */
  predicate WritesPc(ins: Instruction)
  {
    && (IsArithmetic(ins.op) || IsBitwise(ins.op) || ins.op.Mov? || ins.op.Ldrb?)
    && |ins.operands| > 0 && ins.operands[0].Register? && ins.operands[0].kind == PC
  }

  /** execute: dispatch on the opcode. The code segment and the stack bounds
      never change; only cmp changes the condition; only str and strb change
      stack bytes; pc moves only for branches, ret and writes to a pc
      destination; nop and unimplemented opcodes change nothing. */
  function Execute(m: Machine, ins: Instruction): (r: Machine)
    requires Executable(m, ins)
    ensures r.Valid()
    ensures r.code == m.code && r.codeTop == m.codeTop && r.codeBot == m.codeBot
    ensures r.stack.top == m.stack.top && r.stack.bot == m.stack.bot
    ensures !ins.op.Cmp? ==> r.conditions == m.conditions
    ensures !(ins.op.Str? || ins.op.Strb?) ==> r.stack == m.stack
    ensures !IsBranch(ins.op) && !ins.op.Ret? && !WritesPc(ins) ==> r.pc == m.pc
    ensures ins.op.Nop? || ins.op.Unimplemented? ==> r == m
  {
    match ins.op
    case Add | Sub | Subs | Mul | Sdiv | Udiv => ExecArithmetic(m, ins)
    case Neg | Lsl | Lsr | And | Orr | Eor => ExecBitwise(m, ins)
    case Mov => ExecMov(m, ins)
    case Ldr => ExecLdr(m, ins)
    case Str => ExecStr(m, ins)
    case B | Bl | Bne | Beq | Blt | Bgt | Ble | Bge => ExecBranch(m, ins)
    case Cmp => ExecCmp(m, ins)
    case Nop => m
    case Clz => ExecClz(m, ins)
    case Ldrb => ExecLdrb(m, ins)
    case Strb => ExecStrb(m, ins)
    case Ret => ExecRet(m)
    case Unimplemented(_) => m
  }
}

=== FILE: isa.dfy ===
/** The decoded instruction set consumed by the execution engine: opcodes,
    tagged operands and instructions, and the condition code left by cmp.
    The loader that produces them is not part of this model. */
module Isa {
  import opened Words

  /** Index of a general-purpose register x0 .. x30 (x30 is the link register). */
  type RegIndex = i: nat | i < 31

  const LinkRegister: RegIndex := 30

  /** The view a register operand takes: its 32-bit (w) or 64-bit (x) half of
      a general register, the stack pointer, the program counter, or a tag
      none of the handlers recognise. */
  datatype RegKind = W | X | SP | PC | BadKind

  /** A tagged operand. For Memory, kind and index name the base register and
      offset is added to its value modulo 2^64. */
  datatype Operand =
    | Constant(value: U64)
    | Address(value: U64)
    | Register(kind: RegKind, index: RegIndex)
    | Memory(kind: RegKind, index: RegIndex, offset: U64)

  /** Operands whose value get_value can produce (all but Memory). */
  predicate IsValueOperand(op: Operand)
  {
    !op.Memory?
  }

  /** The register operand a Memory operand takes its base value from. */
  function BaseRegister(op: Operand): (base: Operand)
    requires op.Memory?
    ensures base.Register? && base.kind == op.kind && base.index == op.index
  {
    Register(op.kind, op.index)
  }

  datatype Opcode =
    | Add | Sub | Subs | Mul | Sdiv | Udiv
    | Neg | Lsl | Lsr | And | Orr | Eor
    | Mov
    | Ldr | Str | Ldrb | Strb
    | Cmp
    | B | Bl | Beq | Bne | Blt | Bgt | Ble | Bge
    | Clz
    | Ret
    | Nop
    /** Any opcode execute has no case for. */
    | Unimplemented(code: nat)

  predicate IsArithmetic(op: Opcode)
  {
    op.Add? || op.Sub? || op.Subs? || op.Mul? || op.Sdiv? || op.Udiv?
  }

  predicate IsBitwise(op: Opcode)
  {
    op.Neg? || op.Lsl? || op.Lsr? || op.And? || op.Orr? || op.Eor?
  }

  predicate IsConditionalBranch(op: Opcode)
  {
    op.Beq? || op.Bne? || op.Blt? || op.Bgt? || op.Ble? || op.Bge?
  }

  predicate IsBranch(op: Opcode)
  {
    op.B? || op.Bl? || IsConditionalBranch(op)
  }

  datatype Instruction = Instruction(op: Opcode, operands: seq<Operand>)

  /** The outcome of the latest cmp. The machine starts with none; cmp always
      sets exactly one of the other three. */
  datatype Condition = NoCondition | Zero | Negative | Positive
}

=== FILE: machine.dfy ===
/** The machine state, its initial value, instruction fetch, and operand
    resolution: reading an operand's value (get_value), writing a register
    operand (put_value) and computing a memory operand's effective address
    (get_memory_address). */
module MachineState {
  import opened Words
  import opened Isa
  import opened StackMemory

  /** The marker init_machine stores in every general register (REGISTER_NULL).
      Its value is defined outside this model; nothing here depends on it. */
  const RegisterNull: U64

  /** One simulation's state. The code segment holds one instruction per 4-byte
      slot starting at codeTop; codeBot is its last address. */
  datatype Machine = Machine(
    registers: seq<U64>,
    sp: U64,
    pc: U64,
    conditions: Condition,
    stack: Stack,
    code: seq<Instruction>,
    codeTop: U64,
    codeBot: U64)
  {
    predicate Valid()
    {
      |registers| == 31 && stack.Valid()
    }
  }

  /** init_machine for an already loaded code segment: every general register
      holds the unset marker, sp and pc take the given values, no condition is
      set, and the stack is one zeroed 8-byte word starting at sp. */
  function Init(sp: U64, pc: U64, code: seq<Instruction>, codeTop: U64, codeBot: U64): (m: Machine)
    requires sp + 7 < TWO64
    ensures m.Valid()
    ensures forall i: RegIndex :: m.registers[i] == RegisterNull
    ensures m.sp == sp && m.pc == pc && m.conditions == NoCondition
    ensures m.code == code && m.codeTop == codeTop && m.codeBot == codeBot
    ensures m.stack.top == sp && m.stack.CoversRange(sp, 8) && !m.stack.Covers(sp + 8)
    ensures forall x :: m.stack.Covers(x) ==> m.stack.At(x) == 0
  {
    Machine(seq(31, _ => RegisterNull), sp, pc, NoCondition,
            Stack(Zeros(8), sp, sp + 7), code, codeTop, codeBot)
  }

  /** With a word-aligned initial sp the initial stack is word aligned; in
      any case it covers sp. */
  lemma InitProperties(sp: U64, pc: U64, code: seq<Instruction>, codeTop: U64, codeBot: U64)
    requires sp + 7 < TWO64
    ensures sp % 8 == 0 ==> WordAligned(Init(sp, pc, code, codeTop, codeBot).stack)
    ensures Init(sp, pc, code, codeTop, codeBot).stack.Covers(sp)
  {
  }

  // ---------------------------------------------------------------------
  // fetch
  // ---------------------------------------------------------------------

  /** The pc lies in a slot of the code segment. */
  predicate CanFetch(m: Machine)
  {
    m.codeTop <= m.pc && (m.pc - m.codeTop) / 4 < |m.code|
  }

  /** The instruction in the 4-byte slot that contains pc. */
  function Fetch(m: Machine): (ins: Instruction)
    requires CanFetch(m)
    ensures ins in m.code
  {
    m.code[(m.pc - m.codeTop) / 4]
  }

  /** Every address codeTop + 4 * i + k with k < 4 fetches instruction i. */
  lemma FetchSlot(m: Machine, i: nat, k: nat)
    requires i < |m.code| && k < 4
    requires m.pc == m.codeTop + 4 * i + k
    ensures CanFetch(m) && Fetch(m) == m.code[i]
  {
    DivModUnique(m.pc - m.codeTop, 4, i, k);
  }

  // ---------------------------------------------------------------------
  // Operand resolution
  // ---------------------------------------------------------------------

  /** get_value: a constant or address is its literal; a w register its low
      32 bits zero-extended; an x register its full value; sp and pc their
      current values; a register tag no case handles gives 0. */
  function GetValue(m: Machine, op: Operand): (v: U64)
    requires m.Valid() && IsValueOperand(op)
    ensures op.Register? && op.kind == W ==> v < TWO32 && v == m.registers[op.index] % TWO32
    ensures op.Register? && op.kind == X ==> v == m.registers[op.index]
    ensures op.Constant? || op.Address? ==> v == op.value
    ensures op.Register? && op.kind == SP ==> v == m.sp
    ensures op.Register? && op.kind == PC ==> v == m.pc
    ensures op.Register? && op.kind == BadKind ==> v == 0
  {
    match op
    case Constant(c) => c
    case Address(a) => a
    case Register(kind, i) =>
      match kind
      case W => m.registers[i] % TWO32
      case X => m.registers[i]
      case SP => m.sp
      case PC => m.pc
      case BadKind => 0
  }

  /** Writing through a w view keeps the low 32 bits; other views keep all 64. */
  function Stored(kind: RegKind, v: U64): U64
  {
    if kind == W then v % TWO32 else v
  }

  /** The machine changed by m -> r at most in what a write to register
      operand dest can touch: its general register (for w and x), sp or pc. */
  predicate WritesOnly(m: Machine, r: Machine, dest: Operand)
    requires m.Valid() && r.Valid()
  {
    && r.stack == m.stack && r.conditions == m.conditions
    && r.code == m.code && r.codeTop == m.codeTop && r.codeBot == m.codeBot
    && (forall j: RegIndex :: !(dest.Register? && dest.kind in {W, X} && dest.index == j) ==>
          r.registers[j] == m.registers[j])
    && (!(dest.Register? && dest.kind == SP) ==> r.sp == m.sp)
    && (!(dest.Register? && dest.kind == PC) ==> r.pc == m.pc)
  }

  /** put_value: store v through the register view of op; a w write clears
      the upper 32 bits of the register; an unknown tag writes nothing. */
  function PutValue(m: Machine, op: Operand, v: U64): (r: Machine)
    requires m.Valid() && op.Register?
    ensures r.Valid() && WritesOnly(m, r, op)
    ensures op.kind != BadKind ==> GetValue(r, op) == Stored(op.kind, v)
    ensures op.kind in {W, X} ==> r.registers[op.index] == Stored(op.kind, v)
    ensures op.kind == BadKind ==> r == m
  {
    match op.kind
    case W => m.(registers := m.registers[op.index := v % TWO32])
    case X => m.(registers := m.registers[op.index := v])
    case SP => m.(sp := v)
    case PC => m.(pc := v)
    case BadKind => m
  }

  /** A later write through the same operand replaces an earlier one. */
  lemma PutValueOverwrites(m: Machine, op: Operand, v1: U64, v2: U64)
    requires m.Valid() && op.Register?
    ensures PutValue(PutValue(m, op, v1), op, v2) == PutValue(m, op, v2)
  {
  }

  /** The w and x views alias one register: a w write reads back through x
      zero-extended, and an x write reads back through w truncated. */
  lemma RegisterViewsAlias(m: Machine, i: RegIndex, v: U64)
    requires m.Valid()
    ensures GetValue(PutValue(m, Register(W, i), v), Register(X, i)) == v % TWO32
    ensures GetValue(PutValue(m, Register(X, i), v), Register(W, i)) == v % TWO32
  {
  }

  /** get_memory_address: the base register's value plus the offset, wrapped
      at most once past 2^64. */
  function EffectiveAddress(m: Machine, op: Operand): (e: U64)
    requires m.Valid() && op.Memory?
    ensures var sum := GetValue(m, BaseRegister(op)) + op.offset;
      e == sum || e == sum - TWO64
  {
    Wrap(GetValue(m, BaseRegister(op)) + op.offset)
  }

  /** The effective address depends only on the registers, sp and pc. */
  lemma EffectiveAddressFrame(m: Machine, r: Machine, op: Operand)
    requires m.Valid() && r.Valid() && op.Memory?
    requires r.registers == m.registers && r.sp == m.sp && r.pc == m.pc
    ensures EffectiveAddress(r, op) == EffectiveAddress(m, op)
  {
  }
}

=== FILE: properties.dfy ===
/** Properties that relate several executed instructions: stores read back by
    loads, calls returned from, comparisons decided by branches, and the
    frame of every instruction that is not a control transfer. */
module ExecutionProperties {
  import opened Words
  import opened Isa
  import opened Alu
  import opened StackMemory
  import opened MachineState
  import opened Engine

  /** The handlers themselves: execute_str of a w or x register followed by
      execute_ldr of the same view at the same effective address loads the
      stored value. */
  lemma StoreHandlerThenLoadHandler(m: Machine, kind: RegKind, i: RegIndex, j: RegIndex, mem: Operand)
    requires m.Valid() && mem.Memory? && kind in {W, X}
    requires m.stack.CoversRange(EffectiveAddress(m, mem), StoreWidth(kind))
    ensures var store := Instruction(Str, [Register(kind, i), mem]);
      && Executable(m, store)
      && var m1 := ExecStr(m, store);
      && var load := Instruction(Ldr, [Register(kind, j), mem]);
      && Executable(m1, load)
      && ExecLdr(m1, load).registers[j] == Stored(kind, m.registers[i])
  {
    var store := Instruction(Str, [Register(kind, i), mem]);
    var m1 := ExecStr(m, store);
    var load := Instruction(Ldr, [Register(kind, j), mem]);
    EffectiveAddressFrame(m, m1, mem);
    var e, n := EffectiveAddress(m, mem), StoreWidth(kind);
    assert LoadWidth(kind) == n;
    assert LeValue(Read(m1.stack, e, n)) == GetValue(m, Register(kind, i));
  }

  /** str of a w or x register followed by ldr from the same memory operand
      loads what was stored: all 64 bits for x, the low 32 bits zero-extended
      for w. */
  lemma StoreThenLoad(m: Machine, kind: RegKind, i: RegIndex, j: RegIndex, mem: Operand)
    requires m.Valid() && mem.Memory? && kind in {W, X}
    requires m.stack.CoversRange(EffectiveAddress(m, mem), StoreWidth(kind))
    ensures var store := Instruction(Str, [Register(kind, i), mem]);
      && Executable(m, store)
      && var m1 := Execute(m, store);
      && var load := Instruction(Ldr, [Register(kind, j), mem]);
      && Executable(m1, load)
      && Execute(m1, load).registers[j] == Stored(kind, m.registers[i])
  {
    StoreHandlerThenLoadHandler(m, kind, i, j, mem);
  }

  /** strb followed by ldrb from the same memory operand loads the low byte
      of the stored value, zero-extended. */
  lemma StoreByteThenLoadByte(m: Machine, src: Operand, kind: RegKind, j: RegIndex, mem: Operand)
    requires m.Valid() && IsValueOperand(src) && mem.Memory? && kind in {W, X}
    requires m.stack.Covers(EffectiveAddress(m, mem))
    ensures var store := Instruction(Strb, [src, mem]);
      && Executable(m, store)
      && var m1 := Execute(m, store);
      && var load := Instruction(Ldrb, [Register(kind, j), mem]);
      && Executable(m1, load)
      && Execute(m1, load).registers[j] == GetValue(m, src) % 0x100
  {
    var store := Instruction(Strb, [src, mem]);
    var m1 := Execute(m, store);
    EffectiveAddressFrame(m, m1, mem);
  }

  /** A store whose source is sp, pc or an unknown register tag, and a load
      into pc or an unknown tag, leave the machine as it was. */
  lemma IgnoredTransfers(m: Machine, kind: RegKind, i: RegIndex, mem: Operand)
    requires m.Valid() && mem.Memory?
    ensures kind in {SP, PC, BadKind} ==>
      Executable(m, Instruction(Str, [Register(kind, i), mem])) &&
      Execute(m, Instruction(Str, [Register(kind, i), mem])) == m
    ensures kind in {PC, BadKind} ==>
      Executable(m, Instruction(Ldr, [Register(kind, i), mem])) &&
      Execute(m, Instruction(Ldr, [Register(kind, i), mem])) == m
  {
  }

  /** bl followed by ret returns to the address after the bl: the link
      register holds pc + 4 and ret copies it into pc. */
  lemma CallThenReturn(m: Machine, target: Operand)
    requires m.Valid() && IsValueOperand(target)
    ensures var call := Instruction(Bl, [target]);
      && Executable(m, call)
      && var m1 := Execute(m, call);
      && m1.pc == GetValue(m, target)
      && m1.registers[LinkRegister] == Wrap(m.pc + 4)
      && Executable(m1, Instruction(Ret, []))
      && Execute(m1, Instruction(Ret, [])).pc == Wrap(m.pc + 4)
  {
  }

  /** The unsigned relation each conditional branch tests for after a cmp. */
  predicate Holds(br: Opcode, a: U64, b: U64)
    requires IsConditionalBranch(br)
  {
    match br
    case Beq => a == b
    case Bne => a != b
    case Blt => a < b
    case Bgt => a > b
    case Ble => a <= b
    case Bge => a >= b
  }

  /** cmp x, y followed by a conditional branch jumps to the target exactly
      when the branch's unsigned relation holds between x and y, and
      otherwise leaves pc where it was. */
  lemma CompareThenBranch(m: Machine, x: Operand, y: Operand, br: Opcode, target: Operand)
    requires m.Valid() && IsValueOperand(x) && IsValueOperand(y) && IsValueOperand(target)
    requires IsConditionalBranch(br)
    ensures var cmp := Instruction(Cmp, [x, y]);
      && Executable(m, cmp)
      && var m1 := Execute(m, cmp);
      && Executable(m1, Instruction(br, [target]))
      && Execute(m1, Instruction(br, [target])).pc ==
         (if Holds(br, GetValue(m, x), GetValue(m, y)) then GetValue(m, target) else m.pc)
  {
    BranchAfterCompare(GetValue(m, x), GetValue(m, y));
  }

  /** An instruction that is not a branch, not ret and does not name pc as
      its destination leaves pc alone, so the fetch slot is still the same. */
  lemma StraightLineKeepsFetchSlot(m: Machine, ins: Instruction)
    requires Executable(m, ins) && CanFetch(m)
    requires !IsBranch(ins.op) && !ins.op.Ret? && !WritesPc(ins)
    ensures CanFetch(Execute(m, ins)) && Fetch(Execute(m, ins)) == Fetch(m)
  {
  }
}

=== FILE: scenarios.dfy ===
/** Concrete runs of the model, each derived from the general properties. */
module Scenarios {
  import opened Words
  import opened Isa
  import opened Alu
  import opened StackMemory
  import opened MachineState
  import opened Engine
  import opened ExecutionProperties

  /** A machine with sp = 0x8000 and pc = 0x1000 and an empty code segment. */
  function Start(): (m: Machine)
    ensures m.Valid() && m.pc == 0x1000 && m.sp == 0x8000
  {
    Init(0x8000, 0x1000, [], 0x1000, 0x1000)
  }

  lemma ArithmeticExamples()
    ensures Compute(Add, 2, 3) == 5
    ensures Compute(Mul, 6, 7) == 42
    ensures Compute(Sub, 0, 1) == 0xFFFF_FFFF_FFFF_FFFF
    ensures Compute(Neg, 1, 0) == 0xFFFF_FFFF_FFFF_FFFF
    ensures Compute(Udiv, 7, 2) == 3 && Compute(Sdiv, 7, 2) == 3
  {
  }

  lemma Pow2AboveOne(k: nat)
    requires Pow2(k) <= 1
    ensures k == 0
  {
  }

  /** clz of 1 is 31 through w and 63 through x; clz of 0 through x is 64. */
  lemma ClzExamples()
    ensures ClzCount(W, 1) == 31
    ensures ClzCount(X, 1) == 63
    ensures ClzCount(X, 0) == 64
    ensures ClzCount(W, 0x1_0000_0000) == 32
  {
    var w, x := ClzCount(W, 1), ClzCount(X, 1);
    Pow2AboveOne(32 - w - 1);
    Pow2AboveOne(64 - x - 1);
  }

  /** Writing 0xFFFFFFFF through w0 and reading x0 gives 0x00000000FFFFFFFF. */
  lemma WriteW0ReadX0()
    ensures GetValue(PutValue(Start(), Register(W, 0), 0xFFFF_FFFF), Register(X, 0)) == 0x0000_0000_FFFF_FFFF
    ensures GetValue(PutValue(Start(), Register(W, 0), 0x1_2345_6789), Register(X, 0)) == 0x2345_6789
  {
    RegisterViewsAlias(Start(), 0, 0xFFFF_FFFF);
    RegisterViewsAlias(Start(), 0, 0x1_2345_6789);
  }

  /** bl at 0x1000 sets x30 to 0x1004 and jumps; ret then returns to 0x1004. */
  lemma CallReturnExample()
    ensures var call := Instruction(Bl, [Address(0x2000)]);
      && Executable(Start(), call)
      && var m1 := Execute(Start(), call);
      && m1.pc == 0x2000 && m1.registers[LinkRegister] == 0x1004
      && Executable(m1, Instruction(Ret, []))
      && Execute(m1, Instruction(Ret, [])).pc == 0x1004
  {
    CallThenReturn(Start(), Address(0x2000));
  }

  /** cmp of equal values: beq taken, blt and bgt not. */
  lemma CompareEqualExample()
    ensures var m1 := Execute(Start(), Instruction(Cmp, [Constant(4), Constant(4)]));
      && m1.conditions == Zero
      && Execute(m1, Instruction(Beq, [Address(0x2000)])).pc == 0x2000
      && Execute(m1, Instruction(Blt, [Address(0x2000)])).pc == 0x1000
      && Execute(m1, Instruction(Bgt, [Address(0x2000)])).pc == 0x1000
  {
    CompareThenBranch(Start(), Constant(4), Constant(4), Beq, Address(0x2000));
    CompareThenBranch(Start(), Constant(4), Constant(4), Blt, Address(0x2000));
    CompareThenBranch(Start(), Constant(4), Constant(4), Bgt, Address(0x2000));
  }

  /** cmp 3, 5 records Negative and blt is taken. */
  lemma CompareLessExample()
    ensures var m1 := Execute(Start(), Instruction(Cmp, [Constant(3), Constant(5)]));
      && m1.conditions == Negative
      && Execute(m1, Instruction(Blt, [Address(0x2000)])).pc == 0x2000
  {
    CompareThenBranch(Start(), Constant(3), Constant(5), Blt, Address(0x2000));
  }

  /** Before any cmp, bne is taken and beq is not. */
  lemma BranchBeforeCompareExample()
    ensures Execute(Start(), Instruction(Bne, [Address(0x2000)])).pc == 0x2000
    ensures Execute(Start(), Instruction(Beq, [Address(0x2000)])).pc == 0x1000
  {
  }

  /** Multi-byte values are laid out least significant byte first. */
  lemma LittleEndianExample()
    ensures LeBytes(0x0123_4567_89AB_CDEF, 8) == [0xEF, 0xCD, 0xAB, 0x89, 0x67, 0x45, 0x23, 0x01]
  {
    assert LeBytes(0x01, 1) == [0x01];
    assert LeBytes(0x0123, 2) == [0x23, 0x01];
    assert LeBytes(0x01_2345, 3) == [0x45, 0x23, 0x01];
    assert LeBytes(0x0123_4567, 4) == [0x67, 0x45, 0x23, 0x01];
    assert LeBytes(0x01_2345_6789, 5) == [0x89, 0x67, 0x45, 0x23, 0x01];
    assert LeBytes(0x0123_4567_89AB, 6) == [0xAB, 0x89, 0x67, 0x45, 0x23, 0x01];
    assert LeBytes(0x01_2345_6789_ABCD, 7) == [0xCD, 0xAB, 0x89, 0x67, 0x45, 0x23, 0x01];
  }

  /** str x1, [sp] then ldr x2, [sp] on the initial stack copies x1 into x2. */
  lemma StoreLoadExample()
    ensures var mem := Memory(SP, 0, 0);
      var m0 := PutValue(Start(), Register(X, 1), 0x0123_4567_89AB_CDEF);
      && Executable(m0, Instruction(Str, [Register(X, 1), mem]))
      && var m1 := Execute(m0, Instruction(Str, [Register(X, 1), mem]));
      && Executable(m1, Instruction(Ldr, [Register(X, 2), mem]))
      && Execute(m1, Instruction(Ldr, [Register(X, 2), mem])).registers[2] == 0x0123_4567_89AB_CDEF
  {
    var m0 := PutValue(Start(), Register(X, 1), 0x0123_4567_89AB_CDEF);
    StoreThenLoad(m0, X, 1, 2, Memory(SP, 0, 0));
  }

  /** Growing a word at 16 .. 23 up to 5 and down to 24. */
  lemma GrowExamples()
    ensures Grow(Stack(Zeros(8), 16, 23), 5) == Stack(Zeros(24), 0, 23)
    ensures Grow(Stack(Zeros(8), 16, 23), 24) == Stack(Zeros(16), 16, 31)
    ensures Grow(Stack(Zeros(8), 16, 23), 30) == Stack(Zeros(16), 16, 31)
    ensures Grow(Stack(Zeros(8), 16, 23), 20) == Stack(Zeros(8), 16, 23)
  {
    assert Zeros(16) + Zeros(8) == Zeros(24);
    assert Zeros(8)[..7] + Zeros(9) == Zeros(16);
  }
}

=== FILE: stack.dfy ===
/** The simulated stack: a byte buffer addressed by absolute 64-bit addresses
    between two inclusive bounds, and grow_stack, which re-bases the buffer so
    that it covers a requested address. */
module StackMemory {
  import opened Words

  /** bytes[i] is the byte at absolute address top + i. top is the lowest and
      bot the highest address covered, both inclusive (stack_top, stack_bot). */
  datatype Stack = Stack(bytes: seq<U8>, top: U64, bot: U64) {

    /** The buffer spans exactly the bounds. */
    predicate Valid()
    {
      top <= bot && |bytes| == bot - top + 1
    }

    predicate Covers(addr: int)
    {
      top <= addr <= bot
    }

    /** The n addresses addr .. addr + n - 1 all lie within the bounds. */
    predicate CoversRange(addr: int, n: nat)
    {
      top <= addr && addr + n <= bot + 1
    }

    /** The byte at absolute address addr. */
    function At(addr: int): U8
      requires Valid() && Covers(addr)
    {
      bytes[addr - top]
    }
  }

  /** Both bounds sit on 8-byte words: top at the start of one, bot at the end of one. */
  predicate WordAligned(s: Stack)
  {
    s.top % 8 == 0 && (s.bot + 1) % 8 == 0
  }

  function Zeros(n: nat): (z: seq<U8>)
    ensures |z| == n && forall i :: 0 <= i < n ==> z[i] == 0
  {
    seq(n, _ => 0)
  }

  /** The n bytes at addr .. addr + n - 1. */
  function Read(s: Stack, addr: int, n: nat): (bs: seq<U8>)
    requires s.Valid() && s.CoversRange(addr, n)
    ensures |bs| == n
    ensures forall k :: 0 <= k < n ==> bs[k] == s.At(addr + k)
  {
    s.bytes[addr - s.top .. addr - s.top + n]
  }

  /** The stack with bs written at addr .. addr + |bs| - 1. The bounds stay,
      the written bytes read back, and every other byte is unchanged. */
  function Write(s: Stack, addr: int, bs: seq<U8>): (r: Stack)
    requires s.Valid() && s.CoversRange(addr, |bs|)
    ensures r.Valid() && r.top == s.top && r.bot == s.bot
    ensures Read(r, addr, |bs|) == bs
    ensures forall x :: r.Covers(x) && !(addr <= x < addr + |bs|) ==> r.At(x) == s.At(x)
  {
    var off := addr - s.top;
    var r := Stack(s.bytes[..off] + bs + s.bytes[off + |bs|..], s.top, s.bot);
    assert forall k :: 0 <= k < |bs| ==> r.At(addr + k) == bs[k];
    r
  }

  // ---------------------------------------------------------------------
  // grow_stack
  // ---------------------------------------------------------------------

  /** grow_stack's rounding of a downward target, (a / 8 + 1) * 8, stays below 2^64. */
  predicate GrowDefined(s: Stack, a: U64)
  {
    a <= s.bot || a / 8 < 0x1FFF_FFFF_FFFF_FFFF
  }

  /** grow_stack(a) as the C code does it.
      Upward (a below top): top drops to a rounded down to a word, the new
      prefix is zero and every old byte keeps its address.
      Downward (a above bot): bot rises to one less than the smallest multiple
      of 8 above a, but only the bytes below the old bot are copied, so the
      byte at the old bot is zero afterwards, like the rest of the new suffix.
      A covered address changes nothing. */
  function Grow(s: Stack, a: U64): (r: Stack)
    requires s.Valid() && GrowDefined(s, a)
    ensures r.Valid() && r.Covers(a)
    ensures s.Covers(a) ==> r == s
    ensures a < s.top ==>
      && r.bot == s.bot
      && r.top % 8 == 0 && r.top <= a < r.top + 8
      && (forall x :: r.top <= x < s.top ==> r.At(x) == 0)
      && (forall x :: s.Covers(x) ==> r.At(x) == s.At(x))
    ensures a > s.bot ==>
      && r.top == s.top
      && (r.bot + 1) % 8 == 0 && a <= r.bot < a + 8
      && (forall x :: s.top <= x < s.bot ==> r.At(x) == s.At(x))
      && (forall x :: s.bot <= x <= r.bot ==> r.At(x) == 0)
  {
    if a < s.top then
      var newTop := if a % 8 != 0 then a - a % 8 else a;
      Stack(Zeros(s.top - newTop) + s.bytes, newTop, s.bot)
    else if a > s.bot then
      var newEnd := if a % 8 != 0 then a + (8 - a % 8) else a + 8;
      Stack(s.bytes[..s.bot - s.top] + Zeros(newEnd - s.bot), s.top, newEnd - 1)
    else
      s
  }

  /** grow_stack with the downward copy taking the whole old buffer
      (stack_bot - stack_top + 1 bytes): the same bounds as Grow, and every old
      byte keeps its address and value in both directions. */
  function GrowPreserving(s: Stack, a: U64): (r: Stack)
    requires s.Valid() && GrowDefined(s, a)
    ensures r.Valid() && r.Covers(a)
    ensures r.top == Grow(s, a).top && r.bot == Grow(s, a).bot
    ensures forall x :: s.Covers(x) ==> r.At(x) == s.At(x)
    ensures forall x :: r.Covers(x) && !s.Covers(x) ==> r.At(x) == 0
  {
    if a < s.top then
      Grow(s, a)
    else if a > s.bot then
      var newEnd := if a % 8 != 0 then a + (8 - a % 8) else a + 8;
      Stack(s.bytes + Zeros(newEnd - 1 - s.bot), s.top, newEnd - 1)
    else
      s
  }

  /** A second grow_stack to the same address changes nothing. */
  lemma GrowIdempotent(s: Stack, a: U64)
    requires s.Valid() && GrowDefined(s, a)
    ensures GrowDefined(Grow(s, a), a)
    ensures Grow(Grow(s, a), a) == Grow(s, a)
  {
  }

  /** Growth keeps both bounds on word boundaries. */
  lemma GrowKeepsAlignment(s: Stack, a: U64)
    requires s.Valid() && GrowDefined(s, a) && WordAligned(s)
    ensures WordAligned(Grow(s, a)) && WordAligned(GrowPreserving(s, a))
  {
  }

  /** Downward growth as written loses the last byte of the old buffer
      whenever that byte was not zero. */
  lemma GrowLosesOldBottomByte(s: Stack, a: U64)
    requires s.Valid() && GrowDefined(s, a)
    requires a > s.bot && s.At(s.bot) != 0
    ensures Grow(s, a).At(s.bot) != s.At(s.bot)
    ensures GrowPreserving(s, a).At(s.bot) == s.At(s.bot)
  {
  }

  /** A concrete instance: one word at 0 .. 7 whose last byte is 0xAB, grown
      to cover address 8. */
  lemma GrowLosesOldBottomByteExample()
    ensures var s := Stack([0, 0, 0, 0, 0, 0, 0, 0xAB], 0, 7);
      && Grow(s, 8).bot == 15
      && Grow(s, 8).At(7) == 0
      && GrowPreserving(s, 8).At(7) == 0xAB
  {
    var s := Stack([0, 0, 0, 0, 0, 0, 0, 0xAB], 0, 7);
    GrowLosesOldBottomByte(s, 8);
  }
}

=== FILE: words.dfy ===
/** Fixed-width unsigned integers of the simulated 64-bit machine, powers of
    two, and the little-endian byte layout its multi-byte loads and stores use. */
module Words {

  const TWO32: nat := 0x1_0000_0000
  const TWO64: nat := 0x1_0000_0000_0000_0000

  /** A byte of the simulated stack (uint8_t). */
  type U8 = x: nat | x < 0x100

  /** A register value or address (uint64_t). */
  type U64 = x: nat | x < 0x1_0000_0000_0000_0000

  function Pow2(n: nat): (r: nat)
    ensures r >= 1
  {
    if n == 0 then 1 else 2 * Pow2(n - 1)
  }

  /** Reduction modulo 2^64: what uint64_t arithmetic does to an exact result. */
  function Wrap(x: int): (r: U64)
    ensures 0 <= x < TWO64 ==> r == x
    ensures TWO64 <= x < 2 * TWO64 ==> r == x - TWO64
    ensures -(TWO64 as int) <= x < 0 ==> r == x + TWO64
  {
    x % TWO64
  }

  lemma {:induction false} Pow2Add(a: nat, b: nat)
    ensures Pow2(a + b) == Pow2(a) * Pow2(b)
  {
    if a > 0 {
      Pow2Add(a - 1, b);
      assert Pow2(a + b) == 2 * Pow2(a - 1 + b);
    }
  }

  lemma {:induction false} Pow2Monotonic(a: nat, b: nat)
    requires a <= b
    ensures Pow2(a) <= Pow2(b)
  {
    if a < b {
      Pow2Monotonic(a, b - 1);
    }
  }

  /** The widths the machine works with. */
  lemma Pow2Widths()
    ensures Pow2(8) == 0x100
    ensures Pow2(32) == TWO32
    ensures Pow2(64) == TWO64
  {
    assert Pow2(2) == 4;
    assert Pow2(4) == 16 by { Pow2Add(2, 2); }
    assert Pow2(8) == 0x100 by { Pow2Add(4, 4); }
    assert Pow2(16) == 0x1_0000 by { Pow2Add(8, 8); }
    assert Pow2(32) == TWO32 by { Pow2Add(16, 16); }
    assert Pow2(64) == TWO64 by { Pow2Add(32, 32); }
  }

  /** Quotient and remainder are unique: the bridge for every division fact below. */
  lemma DivModUnique(v: int, d: int, q: int, r: int)
    requires d > 0 && 0 <= r < d && v == d * q + r
    ensures v / d == q && v % d == r
  {
    var q', r' := v / d, v % d;
    assert d * (q - q') == r' - r by {
      assert d * q' + r' == d * q + r;
    }
    if q' < q {
      MulAtLeast(d, q - q');
    } else if q' > q {
      MulAtLeast(d, q' - q);
    }
  }

  lemma MulAtLeast(d: int, k: int)
    requires d > 0 && k >= 1
    ensures d * k >= d
  {
    assert d * k == d + d * (k - 1);
  }

  /** Splitting a remainder modulo a product into a low and a high part. */
  lemma ModProduct(v: nat, a: nat, b: nat)
    requires a > 0 && b > 0
    ensures v % (a * b) == v % a + a * ((v / a) % b)
    ensures v / (a * b) == (v / a) / b
  {
    var q, r := v / a, v % a;
    var q2, r2 := q / b, q % b;
    assert a * q == (a * b) * q2 + a * r2 by {
      assert q == b * q2 + r2;
    }
    assert a * r2 + r < a * b by {
      MulMonotonic(a, r2, b - 1);
      assert a * (b - 1) == a * b - a;
    }
    DivModUnique(v, a * b, q2, a * r2 + r);
  }

  lemma MulMonotonic(a: nat, x: nat, y: nat)
    requires x <= y
    ensures a * x <= a * y
  {
    assert a * y == a * x + a * (y - x);
  }

  /** Adding a multiple of the modulus does not change a remainder. */
  lemma ModAddMultiple(k: int, y: int, d: int)
    requires d > 0
    ensures (k * d + y) % d == y % d
  {
    DivModUnique(k * d + y, d, k + y / d, y % d);
  }

  /** Multiplying first and reducing later agrees with reducing first. */
  lemma ModMulLeft(x: nat, p: nat, d: nat)
    requires d > 0
    ensures (x * p) % d == ((x % d) * p) % d
  {
    assert x * p == ((x / d) * p) * d + (x % d) * p;
    ModAddMultiple((x / d) * p, (x % d) * p, d);
  }

  // ---------------------------------------------------------------------
  // Little-endian byte layout: the host (x86-64) order behind the
  // uint32_t/uint64_t pointer casts of the loads and stores.
  // ---------------------------------------------------------------------

  /** The n low-order bytes of v, least significant first. */
  function LeBytes(v: nat, n: nat): (bs: seq<U8>)
    ensures |bs| == n
  {
    if n == 0 then [] else [v % 0x100] + LeBytes(v / 0x100, n - 1)
  }

  /** The number whose little-endian bytes are bs. */
  function LeValue(bs: seq<U8>): (v: nat)
    ensures v < Pow2(8 * |bs|)
  {
    if |bs| == 0 then 0
    else
      Pow2Widths();
      Pow2Add(8, 8 * (|bs| - 1));
      bs[0] + 0x100 * LeValue(bs[1..])
  }

  /** Decoding n encoded bytes recovers v modulo 2^(8n): a store of n bytes
      followed by a load of n bytes keeps exactly the low 8n bits. */
  lemma {:induction false} LeValueOfLeBytes(v: nat, n: nat)
    ensures LeValue(LeBytes(v, n)) == v % Pow2(8 * n)
  {
    if n == 0 {
      assert v % 1 == 0;
    } else {
      var bs := LeBytes(v, n);
      assert bs[1..] == LeBytes(v / 0x100, n - 1);
      LeValueOfLeBytes(v / 0x100, n - 1);
      Pow2Widths();
      Pow2Add(8, 8 * (n - 1));
      ModProduct(v, 0x100, Pow2(8 * (n - 1)));
    }
  }

  /** Encoding the decoded value of a byte sequence gives the sequence back. */
  lemma {:induction false} LeBytesOfLeValue(bs: seq<U8>)
    ensures LeBytes(LeValue(bs), |bs|) == bs
  {
    if |bs| > 0 {
      var v := LeValue(bs);
      Pow2Widths();
      Pow2Add(8, 8 * (|bs| - 1));
      DivModUnique(v, 0x100, LeValue(bs[1..]), bs[0]);
      LeBytesOfLeValue(bs[1..]);
      assert LeBytes(v, |bs|) == [bs[0]] + bs[1..];
    }
  }

  /** A value that fits in n bytes survives the round trip unchanged. */
  lemma LeRoundTrip(v: nat, n: nat)
    requires v < Pow2(8 * n)
    ensures LeValue(LeBytes(v, n)) == v
  {
    LeValueOfLeBytes(v, n);
    DivModUnique(v, Pow2(8 * n), 0, v);
  }
}
